=== FILE: README.md ===
# AngryTanks: session protocol, console editor and menu, in Dafny

This project models four small pieces of the AngryTanks tank game and proves properties
of them. The server's player session is one. The client's console prompt editor is
another. The client's text box, which reuses that editor, is the third. The main menu's
three-button selector is the fourth.

- **ServerPlayer** (`server_player.dfy`) models the player session of
  `AngryTanks.Server/Player.cs`. It has an immutable identity: slot, connection,
  callsign, tag and team. Its state goes from `Joining` to `Spawning`. `HandleData` is a
  pure step function. It takes the session, the registry's player list in enumeration
  order, the raw world bytes and the incoming message, and returns the new session and
  its ordered outgoing messages. Each outgoing message carries its recipient, its
  delivery method and its sequence channel. The recipient is either "this connection
  only" or "everyone except this connection". The join handshake comes out in this
  order: world, the other players, `State(slot)`, then the requester itself.
  `SendStateLoop` writes the handshake as the source's loop over the registry and is
  proved to produce the same messages.
- **LineEditor** (`line_editor.dfy`) is the prompt editor shared by the console and the
  text box. It holds a text and a cursor and handles Left, Right, Backspace, Delete,
  the cursor clamp and printable-character insertion. Its lemmas show which edits undo
  which.
- **ConsoleLines** (`console_lines.dfy`) models console message lines built from one
  message or from an alternating message/colour argument list. It also models the
  history, where `WriteLine` puts the newest line first.
- **GameConsole** (`game_console.dfy`) models `KeyPressed` and `CharacterEntered` of the
  console. An Enter press returns the input events it fires.
- **TextBox** (`text_box.dfy`) is the reduced editor: Backspace, typed characters, the
  `PromptActive` setter and `WriteLine`.
- **MainMenu** (`main_menu.dfy`) models the cyclic selector. Exactly one of the three
  buttons is yellow at any time. Key handling is edge-triggered: an action happens when
  a key is released. The module also models what Enter does.
- **Numeric**, **Colors** and **Wrappers** hold the .NET fixed-width integers, the XNA
  colours and a `Result` type.

Three facts about the server code shape the model:

- The code does not guard against a repeated `MsgState`: the whole handshake is sent
  again and the session stays in `Spawning`.
- The world length is cast to 16 bits with no check. A world of 65536 bytes or more
  gets a wrapped length field, but all of its bytes are still sent.
- Slots are passed in from outside. This model does not decide how GameKeeper picks them.

## Model

| member | source | states |
|---|---|---|
| ServerPlayer.NewPlayer | AngryTanks.Server/Player.cs:44-57 | A new session is in Joining. Its identity comes from the slot and connection arguments plus the callsign, tag and team of the info argument. |
| ServerPlayer.Info | AngryTanks.Server/Player.cs:32-38 | PlayerInfo returns exactly the session's slot, callsign, tag and team. |
| ServerPlayer.HandleData | AngryTanks.Server/Player.cs:59-76 | Dispatch on the first byte. MsgState runs the handshake; MsgPlayerClientUpdate broadcasts the rest of the message. Any other type sends nothing and changes nothing. An empty message fails. The identity is kept in every case. |
| ServerPlayer.SendState | AngryTanks.Server/Player.cs:78-141 | The handshake has one message per described player plus three. It starts with the world, then gives AddPlayer(other, false) for each registry entry with another slot in order, then State(slot), and ends with AddPlayer(self, true). All messages are ReliableOrdered on channel 0 to the requester. The state becomes Spawning. |
| ServerPlayer.Others | AngryTanks.Server/Player.cs:98-102 | The players described are exactly the registry entries whose slot differs from the requester's. |
| ServerPlayer.AnnounceOthers | AngryTanks.Server/Player.cs:104-114 | One reliable-ordered AddPlayer(other, isSelf = false) to the requester for each described player, in the same order. |
| ServerPlayer.HandshakeCountsOthers | AngryTanks.Server/Player.cs:98-115 | The number of AddPlayer(isSelf = false) messages equals the number of registry entries with another slot, counted independently. |
| ServerPlayer.HandshakeSelfOnceLast | AngryTanks.Server/Player.cs:129-137 | Exactly one AddPlayer(isSelf = true) is sent, and no message before the last is one. |
| ServerPlayer.HandshakeNeverDescribesRequester | AngryTanks.Server/Player.cs:98-102 | No AddPlayer(isSelf = false) message carries the requester's slot. |
| ServerPlayer.OthersKeepsOrder | AngryTanks.Server/Player.cs:98-115 | Other players are announced in registry enumeration order: the filter distributes over concatenation. |
| ServerPlayer.ThirdJoinerHandshake | AngryTanks.Server/Player.cs:84-137 | With registry [A, B, C], C receives: world, AddPlayer(A), AddPlayer(B), State(2), then AddPlayer(C, self). |
| ServerPlayer.HandshakeReachesOnlyRequester | AngryTanks.Server/Player.cs:164-167 | Every handshake message reaches the requester's connection and no other. |
| ServerPlayer.BroadcastUpdate | AngryTanks.Server/Player.cs:143-155 | A client update is re-sent as a ServerUpdate tagged with the sender's slot. It carries the same update, goes to everyone except the sender, and uses UnreliableSequenced on channel 0. |
| ServerPlayer.BroadcastSkipsOnlySender | AngryTanks.Server/Player.cs:153-154 | The broadcast reaches a connection if and only if it is not the sender's. |
| ServerPlayer.ClientUpdateFanOut | AngryTanks.Server/Player.cs:69-71 | A MsgPlayerClientUpdate leaves the session unchanged and produces exactly one ServerUpdate, tagged with the sender's slot and carrying the update unchanged. It reaches every connection except the sender's. |
| ServerPlayer.WorldLengthField | AngryTanks.Server/Player.cs:82-87 | The world message carries every raw world byte. Its length field equals the length when that is below 65536, and is the length modulo 65536 otherwise. |
| ServerPlayer.OversizedWorldWraps | AngryTanks.Server/Player.cs:84-86 | A 65536-byte world is announced with length field 0, yet all 65536 bytes are sent. |
| ServerPlayer.RepeatedStateRequest | AngryTanks.Server/Player.cs:63-67 | A repeated MsgState re-sends the identical handshake, and the state stays Spawning. |
| ServerPlayer.RunKeepsIdentity | AngryTanks.Server/Player.cs:59-76 | Over any message sequence, slot, connection, callsign, tag and team never change. The session ends in Spawning if and only if it started there or some message was MsgState. |
| ServerPlayer.SendStateLoop | AngryTanks.Server/Player.cs:92-141 | The source's foreach over the registry, with its skip of the requester's own slot, computes exactly the handshake SendState defines. |
| Numeric.ToUInt16 | AngryTanks.Server/Player.cs:84-86 | The (UInt16) cast keeps the length modulo 65536, and below 65536 it is the length itself. |
| LineEditor.MoveLeft | AngryTanks.Client/GameConsole.cs:388-392 | Left moves the cursor back by exactly one when it is past the start and otherwise does nothing. It never changes the text and keeps the cursor valid. |
| LineEditor.MoveRight | AngryTanks.Client/GameConsole.cs:395-399 | Right moves the cursor forward by exactly one when it is before the end and otherwise does nothing. It never changes the text and keeps the cursor valid. |
| LineEditor.Backspace | AngryTanks.Client/GameConsole.cs:402-409 | With 0 < p <= length, the character at p-1 is removed (everything before it kept, everything after it shifted down) and the cursor becomes p-1. Otherwise nothing changes. |
| LineEditor.DeleteAhead | AngryTanks.Client/GameConsole.cs:412-418 | With 0 <= p < length, the character at p is removed and the cursor stays. Otherwise nothing changes. |
| LineEditor.Clamp | AngryTanks.Client/GameConsole.cs:452-456 | A negative cursor goes to 0 and a cursor past the end goes to the end. A valid cursor is left alone. |
| LineEditor.InsertAt | AngryTanks.Client/GameConsole.cs:458-462 | The character lands at the cursor, the text before it is kept, the text after it shifts up by one, and the cursor advances. |
| LineEditor.CharacterEntered | AngryTanks.Client/GameConsole.cs:443-463 | The character after a '/' opening is swallowed, and only the flag is cleared. Otherwise the cursor is clamped. A character in 32..126 is inserted at the clamped cursor only while the prompt is active, the text on either side is kept, and the cursor moves past it. In every other case the prompt is exactly the clamped prompt. |
| LineEditor.BackspaceUndoesTyping | AngryTanks.Client/GameConsole.cs:402-409 | Backspace right after an insertion restores the prompt exactly. |
| LineEditor.DeleteUndoesTyping | AngryTanks.Client/GameConsole.cs:412-418 | Insertion, then Left, then Delete restores the prompt exactly. |
| LineEditor.CursorMovesInverse | AngryTanks.Client/GameConsole.cs:388-399 | Left and Right undo each other whenever the first one moved. |
| LineEditor.BackspaceRemovesOneCharacter | AngryTanks.Client/GameConsole.cs:402-407 | Backspace removes exactly the character before the cursor, counted as a multiset. |
| LineEditor.DeleteRemovesOneCharacter | AngryTanks.Client/GameConsole.cs:412-416 | Delete removes exactly the character after the cursor, counted as a multiset. |
| LineEditor.TypedCharacterCanBeErased | AngryTanks.Client/GameConsole.cs:443-463 | A printable character typed into an active prompt is removed again by Backspace. |
| ConsoleLines.PlainLine | AngryTanks.Client/GameConsole.cs:64-67 | A one-message line has a single white part. |
| ConsoleLines.ColoredLine | AngryTanks.Client/GameConsole.cs:69-72 | A message-and-colour line has a single part in that colour. |
| ConsoleLines.FromArgs | AngryTanks.Client/GameConsole.cs:74-88 | An odd-length argument list fails with the argument error, and only an odd one does. The line is built if and only if the count is even and every odd position holds a colour. It then has length/2 parts, in argument order, each pairing the text of a message with the colour after it. Otherwise the error names the first odd position without a colour: a cast error for a string there, a null-unboxing error for null. |
| ConsoleLines.Pairs | AngryTanks.Client/GameConsole.cs:81-87 | The loop over message/colour pairs succeeds if and only if every colour position holds a colour. On success it yields one part per pair, in order. On failure it stops at the first position without a colour. |
| ConsoleLines.WriteLine | AngryTanks.Client/GameConsole.cs:576-579 | The new line goes in front, and the older history follows unchanged. |
| ConsoleLines.WriteAllNewestFirst | AngryTanks.Client/GameConsole.cs:576-579 | After several WriteLine calls the history holds those lines newest first, ahead of the older history. |
| GameConsole.NewConsole | AngryTanks.Client/GameConsole.cs:283-285 | A new console is open, with an empty, inactive prompt and an empty history. Whether a PromptReceivedInput handler is attached is exactly what the caller passed. |
| GameConsole.FireInputEvent | AngryTanks.Client/GameConsole.cs:581-592 | One event carrying the text is fired when a handler is attached, and none otherwise. |
| GameConsole.KeyPressed | AngryTanks.Client/GameConsole.cs:351-441 | Only Enter fires events, carrying the text before the reset. Escape and Enter reset the prompt to empty and inactive. Left, Right, Back and Delete apply the shared editor's move or deletion to the prompt and leave Opened, PromptActive and the swallow flag alone. Any other key changes nothing. Tilde toggles Opened only when no prompt is active, keeps the editor when the console ends up open, and resets the prompt when it closes. Slash opens the console and starts a fresh, swallowing prompt unless one is active. The console's own code never touches the history. |
| GameConsole.KeyPressedKeepsInv | AngryTanks.Client/GameConsole.cs:351-441 | Every key keeps 0 <= cursor <= length, and keeps PromptActive only while Opened. |
| GameConsole.Typed | AngryTanks.Client/GameConsole.cs:443-463 | A typed character goes through the shared editor's CharacterEntered, so it is inserted at the clamped cursor when the prompt is active. It never changes Opened or the history. |
| GameConsole.TypedKeepsInv | AngryTanks.Client/GameConsole.cs:443-463 | A typed character keeps the cursor valid and PromptActive only while Opened. |
| GameConsole.CursorKeys | AngryTanks.Client/GameConsole.cs:387-399 | Left and Right move the cursor by one when in bounds and otherwise change nothing. Neither changes the text. |
| GameConsole.TildeToggles | AngryTanks.Client/GameConsole.cs:357-369 | Tilde toggles Opened if and only if the prompt is inactive. A closed console has an empty, inactive prompt. With the prompt active, Tilde changes nothing. |
| GameConsole.SlashOpensPrompt | AngryTanks.Client/GameConsole.cs:372-385 | Slash opens the console and starts an empty, active prompt. The next character is swallowed. |
| GameConsole.EnterSubmits | AngryTanks.Client/GameConsole.cs:429-436 | With a handler attached, Enter fires exactly one event with the current text, even when the prompt is inactive. It then resets the prompt. |
| GameConsole.Write | AngryTanks.Client/GameConsole.cs:566-579 | WriteLine prepends to the history and leaves the editor, Opened and the attached handler alone. |
| GameConsole.RunKeepsInv | AngryTanks.Client/GameConsole.cs:351-463 | Over any sequence of keys, characters and writes, the invariant holds. When a handler is attached, exactly one event is fired per Enter; when none is, no event is fired. |
| TextBox.NewTextBox | AngryTanks.Client/TextBox.cs:137-142 | A new text box is open, with an empty prompt, PromptActive false and the swallow flag false. |
| TextBox.KeyPressed | AngryTanks.Client/TextBox.cs:242-259 | Back is the shared Backspace. Every other key leaves the text box unchanged. |
| TextBox.KeyPressedKeepsValid | AngryTanks.Client/TextBox.cs:247-254 | Every key keeps 0 <= cursor <= length. |
| TextBox.Typed | AngryTanks.Client/TextBox.cs:261-281 | A typed character goes through the shared editor's CharacterEntered, so it is inserted at the clamped cursor when the prompt is active. It never changes Opened or the history. |
| TextBox.TypedKeepsValid | AngryTanks.Client/TextBox.cs:270-280 | A typed character leaves the cursor in range, and repairs an out-of-range cursor unless the character is swallowed. |
| TextBox.SetPromptActive | AngryTanks.Client/TextBox.cs:71-75 | The setter changes PromptActive only: the text, the cursor, the swallow flag, Opened and the history are kept. |
| TextBox.Write | AngryTanks.Client/TextBox.cs:305-318 | WriteLine prepends to the history and leaves the editor and Opened alone. |
| TextBox.NeverSwallows | AngryTanks.Client/TextBox.cs:124 | No operation sets the swallow flag, so it stays false forever. |
| TextBox.InactiveTextStaysEmpty | AngryTanks.Client/TextBox.cs:270-280 | Unless PromptActive is set, the text stays empty and the cursor stays 0, whatever is pressed or typed. |
| TextBox.NewTextBoxIgnoresTyping | AngryTanks.Client/TextBox.cs:137-148 | A new text box keeps an empty text until something sets PromptActive. |
| MainMenu.NewMenu | AngryTanks.Client/MainMenu.cs:58-63 | The menu starts with join highlighted, join yellow, the others white, and no key held. |
| MainMenu.ChangeHighlighted | AngryTanks.Client/MainMenu.cs:156-165 | For any 32-bit direction the highlight stays in join..quit and is yellow. The one-yellow-rest-white invariant is preserved. |
| MainMenu.StepRotates | AngryTanks.Client/MainMenu.cs:159-163 | +1 and -1 rotate the three buttons: quit +1 goes to join, and join -1 goes to quit. |
| MainMenu.StepsUndoEachOther | AngryTanks.Client/MainMenu.cs:156-165 | Moving +1 then -1, or -1 then +1, restores the menu exactly, colours included. |
| Numeric.Wrap32 | AngryTanks.Client/MainMenu.cs:159 | The unchecked 32-bit add agrees with the exact sum modulo 2^32 and stays in the Int32 range. |
| MainMenu.LargeDirectionWraps | AngryTanks.Client/MainMenu.cs:159-163 | Int32.MaxValue from quit wraps negative and lands on quit. |
| MainMenu.Select | AngryTanks.Client/MainMenu.cs:81-84 | The selection step keeps the menu well formed and keeps exactly one button highlighted. |
| MainMenu.SelectOnRelease | AngryTanks.Client/MainMenu.cs:81-84 | A Down release moves +1. Otherwise an Up release moves -1. If neither key was released, nothing moves. |
| MainMenu.Update | AngryTanks.Client/MainMenu.cs:75-101 | As written: the previous keyboard state is updated and the highlight invariant kept. The join menu is chosen if and only if Enter is released on join, and Exit is never produced. |
| MainMenu.EnterOnQuitDoesNothing | AngryTanks.Client/MainMenu.cs:91-95 | As written, releasing Enter on quit produces no action. |
| MainMenu.UpdateIntended | AngryTanks.Client/MainMenu.cs:86-96 | Corrected: on an Enter release, join switches to the join menu, quit exits and help does nothing. |
| MainMenu.IntendedEnterOnQuitExits | AngryTanks.Client/MainMenu.cs:86-96 | Corrected: Enter on quit exits. On every other button the corrected Update agrees with the written one. |
| MainMenu.MoveBeforeChoose | AngryTanks.Client/MainMenu.cs:81-96 | The move happens before Enter is judged. Releasing Down and Enter together on quit chooses join, in the written update and in the corrected one. |
| MainMenu.RunKeepsOneHighlighted | AngryTanks.Client/MainMenu.cs:58-98 | From construction on, exactly one button is yellow in every frame, whether the frames run the written update or the corrected one. |
| MainMenu.RunFrames | AngryTanks.Client/MainMenu.cs:75-101 | Frame after frame the menu stays well formed, and the written update never produces Exit. |
| MainMenu.SameMenu | AngryTanks.Client/MainMenu.cs:75-101 | The written and corrected updates leave the same menu. Their actions differ only where the corrected one exits and the written one does nothing. |
| MainMenu.RunsReachSameMenu | AngryTanks.Client/MainMenu.cs:75-101 | Over any run of frames the written and corrected updates reach the same menu. |

## Left out

- The Lidgren transport is not modelled. Sending, `SendToAll` and `CreateMessage` (including its capacity hint) become outgoing records. The bit layout and endianness its writers produce are not modelled.
- The byte encodings of the AddPlayer, State, PlayerClientUpdate and PlayerServerUpdate packets, and the numeric values of the MessageType and TeamType enums, live in AngryTanks.Common, which is not part of this model. The message type codes are a parameter, and a team is an opaque code.
- ServerPlayer.HandleData: a client update is carried as the opaque bytes after the type byte. Decoding failures inside the unseen packet reader are not modelled.
- ServerPlayer.HandleData: reading the type byte of an empty message is the transport library's `ReadByte`, whose behaviour on an empty buffer is not part of this model. The model assumes it is a failed read and returns `Failure(ReadPastEnd)`. What the caller does with that failure is GameKeeper's, which is not part of this model; Run treats that message as changing nothing.
- GameKeeper is not part of this model: slot allocation, session creation and removal, and the registry itself. The player list and the slot are parameters.
- Logging through log4net is not modelled.
- `PromptInputEvent.SplitCommandLine` depends on string extensions in AngryTanks.Common that are not part of this model.
- Drawing is not modelled: `Draw`, `DrawLine`, `DrawPrompt`, `DrawCursor`, the float geometry of `Bounds`/`InnerBounds`, prompt blinking, prompt prefix and cursor strings, and `Camera.cs`.
- `JoinMenu.cs` and the client sprite `Player/Player.cs` are not modelled: they are GUI layout, textures and event subscriptions.
- Service registration, event-handler registration and `Dispose` in GameConsole and TextBox are not modelled.
- GameConsole.KeyPressed: on Enter, the `PromptReceivedInput` handlers run synchronously inside the key handler. Their effects are not modelled; Enter only reports the events it fires. A handler that calls `WriteLine` would change the history during the Enter press, so "never touches the history" covers only the console's own code.
- GameConsole's public `Opened` and `PromptActive` setters are not modelled. GameConsole.KeyPressedKeepsInv: external code can break the invariant through those setters, which are outside the console's own handlers.
- ConsoleLines.FromArgs: only strings, colours and null are modelled as arguments. The text XNA produces for a colour is a parameter, and other object kinds are not modelled.
- Only the keys the handlers test are distinguished. Every other key is `OtherKey`, and the menu's keyboard is reduced to Down, Up and Enter.
- Dafny characters are Unicode scalar values, whereas C# characters are UTF-16 code units. The printable test 32..126 is the same in both.
- The help screen is a TODO in the source, so choosing help does nothing in either version of the menu update. `GameStateManager.Switch` and `Game.Exit` become actions.

## Findings

| source | as written | input that shows it | evidently intended | confidence | as-written member | corrected member |
|---|---|---|---|---|---|---|
| AngryTanks.Client/MainMenu.cs:91-95 | The help branch has no statement of its own: only a TODO comment follows it. So `if (highlightedButton == quit) game.Exit();` becomes its body, and Exit runs only when the button is both help and quit, which is never. | quit highlighted, Enter released, no arrow released: no action | Releasing Enter on quit exits the game, as the comment "also exits the game" says | high, not executed | MainMenu.EnterOnQuitDoesNothing | MainMenu.IntendedEnterOnQuitExits |

=== FILE: colors.dfy ===
/** XNA colours as four 8-bit channels, with the named colours the model uses. */
module Colors {
  import opened Numeric

  datatype Color = Color(r: byte, g: byte, b: byte, a: byte)

  const White: Color := Color(255, 255, 255, 255)
  const Yellow: Color := Color(255, 255, 0, 255)
}

=== FILE: console_lines.dfy ===
/**
 * Console message lines of AngryTanks.Client/GameConsole.cs: a line is a list of
 * coloured parts, built from one message or from an alternating message/colour argument
 * list, and the console history keeps the newest line first.
 */
module ConsoleLines {
  import opened Colors
  import opened Wrappers

  /** ConsoleMessagePart. */
  datatype MessagePart = MessagePart(message: string, color: Color)

  /** ConsoleMessageLine: its parts in drawing order. */
  datatype MessageLine = MessageLine(parts: seq<MessagePart>)

  /** The objects callers pass to the `params object[]` constructor. */
  datatype Arg = Text(s: string) | Paint(c: Color) | Null

  /** ArgumentException for an odd count; the failed `(Color)` unboxing of the argument at `index`. */
  datatype LineError = OddArgumentCount | InvalidCast(index: nat) | NullUnbox(index: nat)

  /** ConsoleMessageLine(String): one white part. */
  function PlainLine(message: string): (r: MessageLine)
    ensures |r.parts| == 1 && r.parts[0].message == message && r.parts[0].color == White
  {
    MessageLine([MessagePart(message, White)])
  }

  /** ConsoleMessageLine(String, Color): one part in the given colour. */
  function ColoredLine(message: string, color: Color): (r: MessageLine)
    ensures |r.parts| == 1 && r.parts[0].message == message && r.parts[0].color == color
  {
    MessageLine([MessagePart(message, color)])
  }

  /**
   * Convert.ToString(object): a string is itself, null is "", and a colour is rendered by
   * XNA's Color.ToString, which is not part of this model and is passed in as `show`.
   */
  function ArgText(a: Arg, show: Color -> string): string {
    match a
    case Text(s) => s
    case Paint(c) => show(c)
    case Null => ""
  }

  /** Whether the argument at every odd position is a colour. */
  predicate ColorsAtOddPositions(list: seq<Arg>) {
    forall i :: 0 <= i < |list| && i % 2 == 1 ==> list[i].Paint?
  }

  /**
   * The error names the first colour position (counted from `offset`) that does not hold a
   * colour: InvalidCast for a string there, NullUnbox for null.
   */
  predicate FirstBadColor(list: seq<Arg>, offset: nat, e: LineError) {
    && (e.InvalidCast? || e.NullUnbox?)
    && var i := e.index - offset;
    && offset <= e.index && 0 <= i < |list| && i % 2 == 1
    && (e.InvalidCast? <==> list[i].Text?)
    && !list[i].Paint?
    && forall j :: 0 <= j < i && j % 2 == 1 ==> list[j].Paint?
  }

  /** The parts of the message/colour pairs in `list`, in argument order, or the first cast failure. */
  function Pairs(list: seq<Arg>, show: Color -> string, offset: nat): (r: Result<seq<MessagePart>, LineError>)
    requires |list| % 2 == 0
    ensures r.Success? <==> ColorsAtOddPositions(list)
    ensures r.Success? ==> |r.value| == |list| / 2
    ensures r.Success? ==> forall k :: 0 <= k < |r.value| ==>
      r.value[k] == MessagePart(ArgText(list[2 * k], show), list[2 * k + 1].c)
    ensures r.Failure? ==> FirstBadColor(list, offset, r.error)
    decreases |list|
  {
    if list == [] then Success([])
    else
      match list[1]
      case Text(_) => Failure(InvalidCast(offset + 1))
      case Null => Failure(NullUnbox(offset + 1))
      case Paint(c) =>
        var rest := Pairs(list[2..], show, offset + 2);
        PairsTail(list, offset);
        if rest.Failure? then
          Failure(rest.error)
        else Success([MessagePart(ArgText(list[0], show), c)] + rest.value)
  }

  /** Dropping a leading message/colour pair shifts every colour position by two. */
  lemma PairsTail(list: seq<Arg>, offset: nat)
    requires |list| >= 2 && list[1].Paint?
    ensures ColorsAtOddPositions(list[2..]) <==> ColorsAtOddPositions(list)
    ensures forall e :: FirstBadColor(list[2..], offset + 2, e) ==> FirstBadColor(list, offset, e)
  {
    var tail := list[2..];
    assert forall i :: 0 <= i < |tail| ==> tail[i] == list[i + 2];
    if ColorsAtOddPositions(tail) {
      forall i | 0 <= i < |list| && i % 2 == 1 ensures list[i].Paint? {
        if i > 1 {
          assert tail[i - 2] == list[i];
        }
      }
    }
    forall e | FirstBadColor(tail, offset + 2, e) ensures FirstBadColor(list, offset, e) {
      var i := e.index - offset;
      assert tail[i - 2] == list[i];
      forall j | 0 <= j < i && j % 2 == 1 ensures list[j].Paint? {
        if j > 1 {
          assert tail[j - 2] == list[j];
        }
      }
    }
  }

  /**
   * ConsoleMessageLine(params object[]): an odd-length list throws ArgumentException;
   * otherwise one part per message/colour pair, in argument order.
   */
  function FromArgs(list: seq<Arg>, show: Color -> string): (r: Result<MessageLine, LineError>)
    ensures r == Failure(OddArgumentCount) <==> |list| % 2 != 0
    ensures r.Success? <==> |list| % 2 == 0 && ColorsAtOddPositions(list)
    ensures r.Success? ==> |r.value.parts| == |list| / 2
    ensures r.Success? ==> forall k :: 0 <= k < |r.value.parts| ==>
      r.value.parts[k].message == ArgText(list[2 * k], show) && list[2 * k + 1] == Paint(r.value.parts[k].color)
    ensures r.Failure? && |list| % 2 == 0 ==> FirstBadColor(list, 0, r.error)
  {
    if |list| % 2 != 0 then Failure(OddArgumentCount)
    else
      var parts := Pairs(list, show, 0);
      if parts.Failure? then
        Failure(parts.error)
      else Success(MessageLine(parts.value))
  }

  /** WriteLine(ConsoleMessageLine): the new line goes to the front of the history. */
  function WriteLine(lines: seq<MessageLine>, line: MessageLine): (r: seq<MessageLine>)
    ensures |r| == |lines| + 1 && r[0] == line && r[1..] == lines
  {
    [line] + lines
  }

  /** Writes each line in turn. */
  function WriteAll(lines: seq<MessageLine>, written: seq<MessageLine>): seq<MessageLine>
    decreases |written|
  {
    if written == [] then lines else WriteAll(WriteLine(lines, written[0]), written[1..])
  }

  function Reverse<T>(s: seq<T>): (r: seq<T>)
    ensures |r| == |s|
    ensures forall i :: 0 <= i < |s| ==> r[i] == s[|s| - 1 - i]
  {
    if s == [] then [] else Reverse(s[1..]) + [s[0]]
  }

  /** After writing several lines the history holds them newest first, ahead of the older history. */
  lemma {:induction false} WriteAllNewestFirst(lines: seq<MessageLine>, written: seq<MessageLine>)
    ensures WriteAll(lines, written) == Reverse(written) + lines
    decreases |written|
  {
    if written != [] {
      WriteAllNewestFirst(WriteLine(lines, written[0]), written[1..]);
      assert Reverse(written) == Reverse(written[1..]) + [written[0]];
    }
  }
}

=== FILE: game_console.dfy ===
/**
 * The on-screen console of AngryTanks.Client/GameConsole.cs: open/closed, a prompt that
 * may be active, the shared line editor, and the history of written lines. Key presses
 * return the new console and the input events fired (PromptReceivedInput).
 */
module GameConsole {
  import opened LineEditor
  import opened ConsoleLines

  /** PromptInputEvent: the submitted text. */
  datatype InputEvent = InputEvent(input: string)

  /** `subscribed` says whether PromptReceivedInput has a handler attached. */
  datatype Console = Console(isOpen: bool, editor: Editor, lines: seq<MessageLine>, subscribed: bool)

  datatype Reaction = Reaction(console: Console, fired: seq<InputEvent>)

  /** The console's invariant: a valid cursor, and an active prompt only while open. */
  predicate Inv(c: Console) {
    Valid(c.editor.prompt) && (c.editor.active ==> c.isOpen)
  }

  /** The constructor: open, prompt inactive and empty, no history. */
  function NewConsole(subscribed: bool): (c: Console)
    ensures Inv(c) && c.isOpen && !c.editor.active && !c.editor.justOpened
    ensures c.editor.prompt == Cleared && c.lines == []
    ensures c.subscribed == subscribed
  {
    Console(true, Editor(false, false, Cleared), [], subscribed)
  }

  /** The prompt reset shared by Escape, Enter and closing: inactive and empty. */
  function ClosePrompt(e: Editor): Editor {
    e.(active := false, prompt := Cleared)
  }

  /** FireInputEvent: one event carrying the text, when a handler is attached. */
  function FireInputEvent(c: Console, input: string): (r: seq<InputEvent>)
    ensures c.subscribed ==> r == [InputEvent(input)]
    ensures !c.subscribed ==> r == []
  {
    if c.subscribed then [InputEvent(input)] else []
  }

  /** KeyPressed: how each key changes the console. */
  function KeyPressed(c: Console, key: Key): (r: Reaction)
    ensures key != Enter ==> r.fired == []
    ensures key == Enter ==> r.fired == FireInputEvent(c, c.editor.prompt.input)
    ensures r.console.lines == c.lines && r.console.subscribed == c.subscribed
    ensures key in {Escape, Enter} ==>
      r.console.editor == c.editor.(active := false, prompt := Cleared) && r.console.isOpen == c.isOpen
    ensures key in {Left, Right, Back, Delete, OtherKey} ==>
      r.console.isOpen == c.isOpen && r.console.editor.active == c.editor.active
      && r.console.editor.justOpened == c.editor.justOpened
    ensures key == Left ==> r.console.editor.prompt == MoveLeft(c.editor.prompt)
    ensures key == Right ==> r.console.editor.prompt == MoveRight(c.editor.prompt)
    ensures key == Back ==> r.console.editor.prompt == Backspace(c.editor.prompt)
    ensures key == Delete ==> r.console.editor.prompt == DeleteAhead(c.editor.prompt)
    ensures key == OtherKey ==> r == Reaction(c, [])
    ensures key == OemTilde ==>
      && (r.console.isOpen != c.isOpen <==> !c.editor.active)
      && (r.console.isOpen ==> r.console.editor == c.editor)
      && (!r.console.isOpen ==> r.console.editor == c.editor.(active := false, prompt := Cleared))
    ensures key == OemQuestion ==>
      && r.console.isOpen
      && (c.editor.active ==> r.console.editor == c.editor)
      && (!c.editor.active ==> r.console.editor == Editor(true, true, Cleared))
  {
    var e := c.editor;
    match key
    case OemTilde =>
      var isOpen := if !e.active then !c.isOpen else c.isOpen;
      var e' := if !isOpen then ClosePrompt(e) else e;
      Reaction(c.(isOpen := isOpen, editor := e'), [])
    case OemQuestion =>
      var e' := if !e.active then Editor(true, true, Cleared) else e;
      Reaction(c.(isOpen := true, editor := e'), [])
    case Left => Reaction(c.(editor := e.(prompt := MoveLeft(e.prompt))), [])
    case Right => Reaction(c.(editor := e.(prompt := MoveRight(e.prompt))), [])
    case Back => Reaction(c.(editor := e.(prompt := Backspace(e.prompt))), [])
    case Delete => Reaction(c.(editor := e.(prompt := DeleteAhead(e.prompt))), [])
    case Escape => Reaction(c.(editor := ClosePrompt(e)), [])
    case Enter => Reaction(c.(editor := ClosePrompt(e)), FireInputEvent(c, e.prompt.input))
    case OtherKey => Reaction(c, [])
  }

  /** CharacterEntered: the shared editor's handling of a typed character. */
  function Typed(c: Console, ch: char): (r: Console)
    ensures r.isOpen == c.isOpen && r.lines == c.lines && r.subscribed == c.subscribed
    ensures r.editor == CharacterEntered(c.editor, ch)
  {
    c.(editor := CharacterEntered(c.editor, ch))
  }

  /** The WriteLine overloads: the new line goes to the front of the history. */
  function Write(c: Console, line: MessageLine): (r: Console)
    ensures r.lines == WriteLine(c.lines, line) && r.editor == c.editor && r.isOpen == c.isOpen
    ensures r.subscribed == c.subscribed
  {
    c.(lines := WriteLine(c.lines, line))
  }

  // ---------------------------------------------------------------------------
  // The invariant and the key effects

  /** Every key keeps the cursor in range and keeps an active prompt only on an open console. */
  lemma KeyPressedKeepsInv(c: Console, key: Key)
    requires Inv(c)
    ensures Inv(KeyPressed(c, key).console)
  {
  }

  /** Typing keeps the invariant (and makes a valid cursor out of any cursor). */
  lemma TypedKeepsInv(c: Console, ch: char)
    requires Inv(c)
    ensures Inv(Typed(c, ch))
  {
  }

  /** Left and Right move the cursor by one when they can and never touch the text. */
  lemma CursorKeys(c: Console)
    requires Inv(c)
    ensures var p := c.editor.prompt;
      var l := KeyPressed(c, Left).console.editor.prompt;
      var r := KeyPressed(c, Right).console.editor.prompt;
      l.input == p.input && r.input == p.input
      && (if p.pointer > 0 then l.pointer == p.pointer - 1 else l == p)
      && (if p.pointer < |p.input| then r.pointer == p.pointer + 1 else r == p)
  {
  }

  /** Tilde toggles the console only while no prompt is active, and a closed console has no prompt. */
  lemma TildeToggles(c: Console)
    requires Inv(c)
    ensures var r := KeyPressed(c, OemTilde).console;
      (r.isOpen != c.isOpen <==> !c.editor.active)
      && (!r.isOpen ==> !r.editor.active && r.editor.prompt == Cleared)
      && (c.editor.active ==> r == c)
  {
  }

  /** Slash opens the console and starts a fresh prompt that will swallow the next character. */
  lemma SlashOpensPrompt(c: Console, ch: char)
    requires !c.editor.active
    ensures var r := KeyPressed(c, OemQuestion).console;
      r.isOpen && r.editor.active && r.editor.prompt == Cleared
      && Typed(r, ch).editor.prompt == Cleared && !Typed(r, ch).editor.justOpened
  {
  }

  /** Enter fires exactly one event with the text typed so far (active or not), then clears the prompt. */
  lemma EnterSubmits(c: Console)
    requires c.subscribed
    ensures KeyPressed(c, Enter).fired == [InputEvent(c.editor.prompt.input)]
    ensures !KeyPressed(c, Enter).console.editor.active
    ensures KeyPressed(c, Enter).console.editor.prompt == Cleared
  {
  }

  /** One user input: a key press, a typed character, or a written line. */
  datatype Input = Press(key: Key) | Type(ch: char) | WriteOut(line: MessageLine)

  function Step(c: Console, i: Input): Reaction {
    match i
    case Press(k) => KeyPressed(c, k)
    case Type(ch) => Reaction(Typed(c, ch), [])
    case WriteOut(line) => Reaction(Write(c, line), [])
  }

  /** Runs a sequence of inputs, collecting the fired events in order. */
  function Run(c: Console, inputs: seq<Input>): Reaction
    decreases |inputs|
  {
    if inputs == [] then Reaction(c, [])
    else
      var first := Step(c, inputs[0]);
      var rest := Run(first.console, inputs[1..]);
      Reaction(rest.console, first.fired + rest.fired)
  }

  function CountEnters(inputs: seq<Input>): nat {
    if inputs == [] then 0 else (if inputs[0] == Press(Enter) then 1 else 0) + CountEnters(inputs[1..])
  }

  /**
   * Over any input sequence from a valid console the invariant holds; with a handler
   * attached every Enter fires exactly one event, and without one nothing is fired.
   */
  lemma {:induction false} RunKeepsInv(c: Console, inputs: seq<Input>)
    requires Inv(c)
    ensures Inv(Run(c, inputs).console)
    ensures Run(c, inputs).console.subscribed == c.subscribed
    ensures |Run(c, inputs).fired| == (if c.subscribed then CountEnters(inputs) else 0)
    decreases |inputs|
  {
    if inputs != [] {
      var first := Step(c, inputs[0]);
      match inputs[0] {
        case Press(k) => KeyPressedKeepsInv(c, k);
        case Type(ch) => TypedKeepsInv(c, ch);
        case WriteOut(_) =>
      }
      RunKeepsInv(first.console, inputs[1..]);
    }
  }
}

=== FILE: line_editor.dfy ===
/**
 * The prompt line editor shared by GameConsole and TextBox (AngryTanks.Client): a text
 * buffer with a cursor, edited by the cursor keys, Backspace, Delete and typed characters.
 *
 * The cursor (promptInputPointer) is an `int`, as in the source, so that the clamp
 * CharacterEntered applies before inserting is part of the model.
 */
module LineEditor {

  datatype Prompt = Prompt(input: string, pointer: int)

  /** The XNA keys the editors react to; every other key is `OtherKey`. */
  datatype Key = OemTilde | OemQuestion | Left | Right | Back | Delete | Escape | Enter | OtherKey

  /** The cursor sits between two characters of the text, or at either end. */
  predicate Valid(p: Prompt) {
    0 <= p.pointer <= |p.input|
  }

  /** The empty prompt every reset (Escape, Enter, closing, opening) goes back to. */
  const Cleared: Prompt := Prompt("", 0)

  /** Characters (char)32 through (char)126: printable ASCII. */
  predicate Printable(c: char) {
    ' ' <= c <= '~'
  }

  /** Keys.Left: one step back unless at the start; the text never changes. */
  function MoveLeft(p: Prompt): (r: Prompt)
    ensures r.input == p.input
    ensures p.pointer > 0 ==> r.pointer == p.pointer - 1
    ensures p.pointer <= 0 ==> r == p
    ensures Valid(p) ==> Valid(r)
  {
    if p.pointer > 0 then p.(pointer := p.pointer - 1) else p
  }

  /** Keys.Right: one step forward unless at the end; the text never changes. */
  function MoveRight(p: Prompt): (r: Prompt)
    ensures r.input == p.input
    ensures p.pointer < |p.input| ==> r.pointer == p.pointer + 1
    ensures p.pointer >= |p.input| ==> r == p
    ensures Valid(p) ==> Valid(r)
  {
    if p.pointer < |p.input| then p.(pointer := p.pointer + 1) else p
  }

  /** Keys.Back: removes the character before the cursor and steps back over it; otherwise nothing. */
  function Backspace(p: Prompt): (r: Prompt)
    ensures 0 < p.pointer <= |p.input| ==>
      && |r.input| == |p.input| - 1
      && r.pointer == p.pointer - 1
      && (forall i :: 0 <= i < p.pointer - 1 ==> r.input[i] == p.input[i])
      && (forall i :: p.pointer - 1 <= i < |r.input| ==> r.input[i] == p.input[i + 1])
    ensures !(0 < p.pointer <= |p.input|) ==> r == p
    ensures Valid(p) ==> Valid(r)
  {
    if 0 < p.pointer <= |p.input| then
      Prompt(p.input[..p.pointer - 1] + p.input[p.pointer..], p.pointer - 1)
    else p
  }

  /** Keys.Delete: removes the character after the cursor, which stays put; otherwise nothing. */
  function DeleteAhead(p: Prompt): (r: Prompt)
    ensures 0 <= p.pointer < |p.input| ==>
      && |r.input| == |p.input| - 1
      && r.pointer == p.pointer
      && (forall i :: 0 <= i < p.pointer ==> r.input[i] == p.input[i])
      && (forall i :: p.pointer <= i < |r.input| ==> r.input[i] == p.input[i + 1])
    ensures !(0 <= p.pointer < |p.input|) ==> r == p
    ensures Valid(p) ==> Valid(r)
  {
    if 0 <= p.pointer < |p.input| then
      Prompt(p.input[..p.pointer] + p.input[p.pointer + 1..], p.pointer)
    else p
  }

  /** The guard before insertion: a cursor below 0 goes to 0, one past the end goes to the end. */
  function Clamp(p: Prompt): (r: Prompt)
    ensures Valid(r) && r.input == p.input
    ensures Valid(p) ==> r == p
    ensures p.pointer < 0 ==> r.pointer == 0
    ensures p.pointer > |p.input| ==> r.pointer == |p.input|
  {
    if p.pointer < 0 then p.(pointer := 0)
    else if p.pointer > |p.input| then p.(pointer := |p.input|)
    else p
  }

  /** String.Insert of one character at the cursor, then one step forward. */
  function InsertAt(p: Prompt, c: char): (r: Prompt)
    requires Valid(p)
    ensures Valid(r)
    ensures |r.input| == |p.input| + 1 && r.pointer == p.pointer + 1
    ensures r.input[p.pointer] == c
    ensures forall i :: 0 <= i < p.pointer ==> r.input[i] == p.input[i]
    ensures forall i :: p.pointer <= i < |p.input| ==> r.input[i + 1] == p.input[i]
  {
    Prompt(p.input[..p.pointer] + [c] + p.input[p.pointer..], p.pointer + 1)
  }

  /** The editing state CharacterEntered reads and writes. */
  datatype Editor = Editor(active: bool, justOpened: bool, prompt: Prompt)

  /**
   * CharacterEntered: the first character after the prompt was opened by '/' is swallowed
   * (only the flag is cleared); otherwise the cursor is clamped and a printable character
   * is inserted at it when the prompt is active.
   */
  function CharacterEntered(e: Editor, c: char): (r: Editor)
    ensures e.justOpened ==> r == e.(justOpened := false)
    ensures !e.justOpened ==> Valid(r.prompt)
    ensures !e.justOpened && e.active && Printable(c) ==>
      && |r.prompt.input| == |e.prompt.input| + 1
      && r.prompt.input[Clamp(e.prompt).pointer] == c
      && r.prompt.pointer == Clamp(e.prompt).pointer + 1
      && (forall i :: 0 <= i < Clamp(e.prompt).pointer ==> r.prompt.input[i] == e.prompt.input[i])
      && (forall i :: Clamp(e.prompt).pointer <= i < |e.prompt.input| ==> r.prompt.input[i + 1] == e.prompt.input[i])
    ensures !e.justOpened && !(e.active && Printable(c)) ==> r.prompt == Clamp(e.prompt)
    ensures !e.justOpened && e.active && Printable(c) ==> r.prompt == InsertAt(Clamp(e.prompt), c)
    ensures !e.justOpened ==> r.active == e.active && !r.justOpened
  {
    if e.justOpened then e.(justOpened := false)
    else
      var q := Clamp(e.prompt);
      if e.active && Printable(c) then e.(prompt := InsertAt(q, c)) else e.(prompt := q)
  }

  // ---------------------------------------------------------------------------
  // Partners: edits that undo each other

  /** Backspace right after typing a character restores the prompt exactly. */
  lemma BackspaceUndoesTyping(p: Prompt, c: char)
    requires Valid(p)
    ensures Backspace(InsertAt(p, c)) == p
  {
    var q := InsertAt(p, c);
    assert q.input[..q.pointer - 1] + q.input[q.pointer..] == p.input;
  }

  /** Typing a character, stepping back over it and deleting it restores the prompt exactly. */
  lemma DeleteUndoesTyping(p: Prompt, c: char)
    requires Valid(p)
    ensures DeleteAhead(MoveLeft(InsertAt(p, c))) == p
  {
    var q := MoveLeft(InsertAt(p, c));
    assert q.input[..q.pointer] + q.input[q.pointer + 1..] == p.input;
  }

  /** Left and Right undo each other whenever the first one moved the cursor. */
  lemma CursorMovesInverse(p: Prompt)
    ensures Valid(p) && p.pointer > 0 ==> MoveRight(MoveLeft(p)) == p
    ensures Valid(p) && p.pointer < |p.input| ==> MoveLeft(MoveRight(p)) == p
  {
  }

  /** Backspace removes exactly the character before the cursor, as a multiset of characters. */
  lemma BackspaceRemovesOneCharacter(p: Prompt)
    requires 0 < p.pointer <= |p.input|
    ensures multiset(Backspace(p).input) + multiset{p.input[p.pointer - 1]} == multiset(p.input)
  {
    var k := p.pointer;
    assert p.input == p.input[..k - 1] + [p.input[k - 1]] + p.input[k..];
  }

  /** Delete removes exactly the character after the cursor, as a multiset of characters. */
  lemma DeleteRemovesOneCharacter(p: Prompt)
    requires 0 <= p.pointer < |p.input|
    ensures multiset(DeleteAhead(p).input) + multiset{p.input[p.pointer]} == multiset(p.input)
  {
    var k := p.pointer;
    assert p.input == p.input[..k] + [p.input[k]] + p.input[k + 1..];
  }

  /** Typing a printable character into an active prompt and backspacing restores the clamped prompt. */
  lemma TypedCharacterCanBeErased(e: Editor, c: char)
    requires !e.justOpened && e.active && Printable(c)
    ensures Backspace(CharacterEntered(e, c).prompt) == Clamp(e.prompt)
  {
    BackspaceUndoesTyping(Clamp(e.prompt), c);
  }
}

=== FILE: main_menu.dfy ===
/**
 * The main menu of AngryTanks.Client/MainMenu.cs: three buttons (join, help, quit), one
 * of them highlighted in yellow and the others white, moved by releasing the Down and Up
 * arrows, and chosen by releasing Enter.
 *
 * The keyboard is reduced to the set of the three keys the menu reads that are held down.
 */
module MainMenu {
  import opened Colors
  import opened Numeric

  /** The values of the `buttons` enum. */
  const Join: int := 0
  const Help: int := 1
  const Quit: int := 2

  datatype MenuKey = Down | Up | Enter

  /** highlightedButton, buttonColor and the previous frame's keyboard state. */
  datatype Menu = Menu(highlighted: int, colors: seq<Color>, previous: set<MenuKey>)

  /** What an update asks of the game: switch to the join menu, or exit. */
  datatype Action = SwitchToJoinMenu | Exit

  datatype MenuUpdate = MenuUpdate(menu: Menu, actions: seq<Action>)

  /** The state the array accesses in the source need: a button index and three colours. */
  predicate WellFormed(m: Menu) {
    Join <= m.highlighted <= Quit && |m.colors| == 3
  }

  /** Exactly the highlighted button is yellow; every other button is white. */
  predicate Highlighted(m: Menu) {
    WellFormed(m) && forall i :: 0 <= i < 3 ==> m.colors[i] == (if i == m.highlighted then Yellow else White)
  }

  /** The constructor: join highlighted, no key held in the (default) previous keyboard state. */
  function NewMenu(): (m: Menu)
    ensures Highlighted(m) && m.highlighted == Join && m.previous == {}
  {
    Menu(Join, [Yellow, White, White], {})
  }

  /**
   * changeHighlightedButton: whiten the current button, add the direction with C#'s
   * unchecked 32-bit addition, send anything past quit to join and anything before
   * join to quit, and colour the new button yellow.
   */
  function ChangeHighlighted(m: Menu, direction: int32): (r: Menu)
    requires WellFormed(m)
    ensures WellFormed(r) && r.previous == m.previous
    ensures Highlighted(m) ==> Highlighted(r)
    ensures r.colors[r.highlighted] == Yellow
  {
    var colors := m.colors[m.highlighted := White];
    var h := Wrap32(m.highlighted + direction);
    var next := if h > Quit then Join else if h < Join then Quit else h;
    Menu(next, colors[next := Yellow], m.previous)
  }

  /** A key is released when it is up now and was down in the previous frame. */
  predicate Released(m: Menu, now: set<MenuKey>, k: MenuKey) {
    k !in now && k in m.previous
  }

  /** The selection part of Update: a Down release moves forward, otherwise an Up release moves back. */
  function Select(m: Menu, now: set<MenuKey>): (r: Menu)
    requires WellFormed(m)
    ensures WellFormed(r) && (Highlighted(m) ==> Highlighted(r))
  {
    if Released(m, now, Down) then ChangeHighlighted(m, 1)
    else if Released(m, now, Up) then ChangeHighlighted(m, -1)
    else m
  }

  /**
   * Update as written: on an Enter release, join switches to the join menu; the quit
   * check sits inside the help check, so it can never succeed.
   */
  function Update(m: Menu, now: set<MenuKey>): (r: MenuUpdate)
    requires WellFormed(m)
    ensures r.menu.previous == now && WellFormed(r.menu)
    ensures Highlighted(m) ==> Highlighted(r.menu)
    ensures Exit !in r.actions
    ensures r.actions == [SwitchToJoinMenu] <==> Released(m, now, Enter) && r.menu.highlighted == Join
    ensures r.actions != [SwitchToJoinMenu] ==> r.actions == []
  {
    var s := Select(m, now);
    var actions :=
      if Released(m, now, Enter) then
        var toJoin := if s.highlighted == Join then [SwitchToJoinMenu] else [];
        var toExit := if s.highlighted == Help then (if s.highlighted == Quit then [Exit] else []) else [];
        toJoin + toExit
      else [];
    MenuUpdate(s.(previous := now), actions)
  }

  /** Update as evidently intended: on an Enter release, quit exits the game. */
  function UpdateIntended(m: Menu, now: set<MenuKey>): (r: MenuUpdate)
    requires WellFormed(m)
    ensures r.menu.previous == now && WellFormed(r.menu)
    ensures Highlighted(m) ==> Highlighted(r.menu)
    ensures r.actions == [SwitchToJoinMenu] <==> Released(m, now, Enter) && r.menu.highlighted == Join
    ensures r.actions == [Exit] <==> Released(m, now, Enter) && r.menu.highlighted == Quit
    ensures r.actions == [] <==> !Released(m, now, Enter) || r.menu.highlighted == Help
  {
    var s := Select(m, now);
    var actions :=
      if Released(m, now, Enter) then
        if s.highlighted == Join then [SwitchToJoinMenu]
        else if s.highlighted == Quit then [Exit]
        else []
      else [];
    MenuUpdate(s.(previous := now), actions)
  }

  // ---------------------------------------------------------------------------
  // Selection

  /** One step forward or back is a rotation of the three buttons: quit wraps to join and join to quit. */
  lemma StepRotates(m: Menu)
    requires Highlighted(m)
    ensures ChangeHighlighted(m, 1).highlighted == (m.highlighted + 1) % 3
    ensures ChangeHighlighted(m, -1).highlighted == (m.highlighted + 2) % 3
    ensures m.highlighted == Quit ==> ChangeHighlighted(m, 1).highlighted == Join
    ensures m.highlighted == Join ==> ChangeHighlighted(m, -1).highlighted == Quit
  {
  }

  /** Moving forward then back restores the menu exactly, colours included (and the other way round). */
  lemma StepsUndoEachOther(m: Menu)
    requires Highlighted(m)
    ensures ChangeHighlighted(ChangeHighlighted(m, 1), -1) == m
    ensures ChangeHighlighted(ChangeHighlighted(m, -1), 1) == m
  {
    var f := ChangeHighlighted(m, 1);
    var b := ChangeHighlighted(m, -1);
    assert ChangeHighlighted(f, -1).colors == m.colors;
    assert ChangeHighlighted(b, 1).colors == m.colors;
  }

  /** The 32-bit addition wraps: the largest direction from quit lands on quit, not on join. */
  lemma LargeDirectionWraps(m: Menu)
    requires Highlighted(m) && m.highlighted == Quit
    ensures ChangeHighlighted(m, 0x7FFF_FFFF).highlighted == Quit
  {
  }

  /**
   * Selection is edge-triggered: a Down release moves forward, otherwise an Up release
   * moves back, and a key that is merely held (or newly pressed) moves nothing.
   */
  lemma SelectOnRelease(m: Menu, now: set<MenuKey>)
    requires Highlighted(m)
    ensures Released(m, now, Down) ==> Update(m, now).menu.highlighted == (m.highlighted + 1) % 3
    ensures !Released(m, now, Down) && Released(m, now, Up) ==>
      Update(m, now).menu.highlighted == (m.highlighted + 2) % 3
    ensures !Released(m, now, Down) && !Released(m, now, Up) ==>
      Update(m, now).menu.highlighted == m.highlighted && Update(m, now).menu.colors == m.colors
  {
    StepRotates(m);
  }

  // ---------------------------------------------------------------------------
  // Choosing

  /** As written: releasing Enter on quit does nothing at all. */
  lemma EnterOnQuitDoesNothing(m: Menu, now: set<MenuKey>)
    requires Highlighted(m) && m.highlighted == Quit
    requires Released(m, now, Enter) && !Released(m, now, Down) && !Released(m, now, Up)
    ensures Update(m, now).actions == []
  {
  }

  /** Corrected: releasing Enter on quit exits the game; on join it still switches to the join menu. */
  lemma IntendedEnterOnQuitExits(m: Menu, now: set<MenuKey>)
    requires Highlighted(m)
    requires Released(m, now, Enter) && !Released(m, now, Down) && !Released(m, now, Up)
    ensures m.highlighted == Quit ==> UpdateIntended(m, now).actions == [Exit]
    ensures m.highlighted == Join ==> UpdateIntended(m, now).actions == [SwitchToJoinMenu]
    ensures UpdateIntended(m, now).actions == Update(m, now).actions || m.highlighted == Quit
  {
  }

  /**
   * Enter is judged after the move of the same frame: Down and Enter released together on
   * quit choose join, in the written update and in the corrected one alike.
   */
  lemma MoveBeforeChoose(m: Menu, now: set<MenuKey>)
    requires Highlighted(m) && m.highlighted == Quit
    requires Released(m, now, Down) && Released(m, now, Enter)
    ensures Update(m, now).actions == [SwitchToJoinMenu]
    ensures UpdateIntended(m, now).actions == [SwitchToJoinMenu]
  {
    StepRotates(m);
  }

  /** The correction touches only the actions: both updates move the menu identically. */
  lemma SameMenu(m: Menu, now: set<MenuKey>)
    requires WellFormed(m)
    ensures Update(m, now).menu == UpdateIntended(m, now).menu
    ensures Update(m, now).actions == UpdateIntended(m, now).actions
      || (UpdateIntended(m, now).actions == [Exit] && Update(m, now).actions == [])
  {
  }

  /** One Update per frame of keyboard state: the written one, or the corrected one when `corrected` holds. */
  function RunFrames(m: Menu, frames: seq<set<MenuKey>>, corrected: bool): (r: MenuUpdate)
    requires WellFormed(m)
    ensures WellFormed(r.menu)
    ensures !corrected ==> Exit !in r.actions
    decreases |frames|
  {
    if frames == [] then MenuUpdate(m, [])
    else
      var first := if corrected then UpdateIntended(m, frames[0]) else Update(m, frames[0]);
      var rest := RunFrames(first.menu, frames[1..], corrected);
      MenuUpdate(rest.menu, first.actions + rest.actions)
  }

  /** From construction on, exactly one button is yellow in every frame, with either update. */
  lemma {:induction false} RunKeepsOneHighlighted(m: Menu, frames: seq<set<MenuKey>>, corrected: bool)
    requires Highlighted(m)
    ensures Highlighted(RunFrames(m, frames, corrected).menu)
    decreases |frames|
  {
    if frames != [] {
      var first := if corrected then UpdateIntended(m, frames[0]) else Update(m, frames[0]);
      RunKeepsOneHighlighted(first.menu, frames[1..], corrected);
    }
  }

  /** Over any run of frames the written and the corrected updates leave the same menu behind. */
  lemma {:induction false} RunsReachSameMenu(m: Menu, frames: seq<set<MenuKey>>)
    requires WellFormed(m)
    ensures RunFrames(m, frames, false).menu == RunFrames(m, frames, true).menu
    decreases |frames|
  {
    if frames != [] {
      SameMenu(m, frames[0]);
      RunsReachSameMenu(Update(m, frames[0]).menu, frames[1..]);
    }
  }
}

=== FILE: numeric.dfy ===
/** Fixed-width integer types of the .NET runtime, with their wrap-around casts written out. */
module Numeric {

  newtype byte = x: int | 0 <= x < 0x100

  newtype uint16 = x: int | 0 <= x < 0x1_0000

  /** System.Int32 values. */
  type int32 = x: int | -0x8000_0000 <= x < 0x8000_0000

  /** The unchecked `(UInt16)n` conversion of a non-negative length: keeps the low 16 bits. */
  function ToUInt16(n: nat): (r: uint16)
    ensures r as int == n % 0x1_0000
    ensures n < 0x1_0000 ==> r as int == n
  {
    (n % 0x1_0000) as uint16
  }

  /** The result of an unchecked 32-bit addition, given the exact sum. */
  function Wrap32(x: int): (r: int32)
    ensures (r - x) % 0x1_0000_0000 == 0
    ensures -0x8000_0000 <= x < 0x8000_0000 ==> r == x
  {
    var m := x % 0x1_0000_0000;
    if m < 0x8000_0000 then m else m - 0x1_0000_0000
  }
}

=== FILE: server_player.dfy ===
/**
 * The server-side player session of AngryTanks.Server/Player.cs: one session per
 * connection, a Joining -> Spawning state machine driven by the first byte of each
 * incoming message, the ordered join handshake, and the fan-out of client updates.
 *
 * The registry's player list (GameKeeper.Players) is a sequence of player
 * descriptions in enumeration order, and the raw world is a byte sequence.
 * Sends become outgoing records tagged with their recipient, delivery method and
 * sequence channel; the byte layout written by the transport is not modelled.
 */
module ServerPlayer {
  import opened Numeric
  import opened Wrappers

  /** TeamType lives in AngryTanks.Common, which is not part of this model: its values are opaque codes. */
  datatype Team = Team(code: byte)

  /** PlayerInformation: what is sent to clients about one player. */
  datatype PlayerInfo = PlayerInfo(slot: byte, callsign: string, tag: string, team: Team)

  /** The two PlayerState values this component uses. */
  datatype PlayerState = Joining | Spawning

  /** Opaque transport connection identity. */
  datatype Connection = Connection(id: nat)

  datatype Player = Player(
    slot: byte,
    connection: Connection,
    callsign: string,
    tag: string,
    team: Team,
    state: PlayerState)

  datatype Delivery = ReliableOrdered | UnreliableSequenced

  /** Who a send addresses: one connection, or every connection but one. */
  datatype Recipient = Only(conn: Connection) | AllExcept(excluded: Connection)

  /** The content of an outgoing message; the constructor is its type discriminator. */
  datatype Body =
    | World(length: uint16, data: seq<byte>)
    | AddPlayer(info: PlayerInfo, isSelf: bool)
    | State(yourSlot: byte)
    | ServerUpdate(origin: byte, update: seq<byte>)

  datatype Outgoing = Outgoing(to: Recipient, delivery: Delivery, channel: nat, body: Body)

  /** The values of MsgState and MsgPlayerClientUpdate in the MessageType enum. */
  datatype MessageCodes = MessageCodes(state: byte, clientUpdate: byte)

  /** A C# switch cannot carry two equal case labels. */
  predicate DistinctCodes(codes: MessageCodes) {
    codes.state != codes.clientUpdate
  }

  datatype HandleError = ReadPastEnd

  /** A session after handling one message, with the messages it sent, in order. */
  datatype Step = Step(player: Player, sent: seq<Outgoing>)

  /** The identity part of a session: what never changes after construction. */
  predicate SameIdentity(p: Player, q: Player) {
    p.slot == q.slot && p.connection == q.connection && p.callsign == q.callsign
    && p.tag == q.tag && p.team == q.team
  }

  /** The PlayerInfo property. */
  function Info(p: Player): (r: PlayerInfo)
    ensures r.slot == p.slot && r.callsign == p.callsign && r.tag == p.tag && r.team == p.team
  {
    PlayerInfo(p.slot, p.callsign, p.tag, p.team)
  }

  /** The constructor: identity from the arguments (the slot argument, not info.slot), state Joining. */
  function NewPlayer(slot: byte, connection: Connection, info: PlayerInfo): (p: Player)
    ensures p.state == Joining
    ensures Info(p) == PlayerInfo(slot, info.callsign, info.tag, info.team)
    ensures p.connection == connection
  {
    Player(slot, connection, info.callsign, info.tag, info.team, Joining)
  }

  /** A reliable-ordered message on channel 0 to the session's own connection. */
  function ToRequester(p: Player, body: Body): Outgoing {
    Outgoing(Only(p.connection), ReliableOrdered, 0, body)
  }

  /** Registry entries the handshake describes to the requester: those with another slot, in enumeration order. */
  function Others(players: seq<PlayerInfo>, slot: byte): (r: seq<PlayerInfo>)
    ensures |r| <= |players|
    ensures forall q :: q in r <==> q in players && q.slot != slot
  {
    if players == [] then []
    else if players[0].slot == slot then Others(players[1..], slot)
    else [players[0]] + Others(players[1..], slot)
  }

  /** One AddPlayer(other, isSelf = false) per described player, in the given order. */
  function AnnounceOthers(p: Player, others: seq<PlayerInfo>): (r: seq<Outgoing>)
    ensures |r| == |others|
    ensures forall k :: 0 <= k < |r| ==> r[k] == ToRequester(p, AddPlayer(others[k], false))
  {
    if others == [] then [] else [ToRequester(p, AddPlayer(others[0], false))] + AnnounceOthers(p, others[1..])
  }

  /** The world message: the length cast to UInt16 with no clamp, then every raw world byte. */
  function WorldMessage(world: seq<byte>): Body {
    World(ToUInt16(|world|), world)
  }

  /**
   * SendState: world, the other players, State(slot), then the requester itself,
   * all reliable-ordered on channel 0 to the requester; the session moves to Spawning.
   */
  function SendState(p: Player, players: seq<PlayerInfo>, world: seq<byte>): (r: Step)
    ensures r.player == p.(state := Spawning)
    ensures |r.sent| == |Others(players, p.slot)| + 3
    ensures r.sent[0].body == World(ToUInt16(|world|), world)
    ensures forall k :: 1 <= k < |r.sent| - 2 ==>
      r.sent[k].body == AddPlayer(Others(players, p.slot)[k - 1], false)
    ensures r.sent[|r.sent| - 2].body == State(p.slot)
    ensures r.sent[|r.sent| - 1].body == AddPlayer(Info(p), true)
    ensures forall k :: 0 <= k < |r.sent| ==>
      r.sent[k].to == Only(p.connection) && r.sent[k].delivery == ReliableOrdered && r.sent[k].channel == 0
  {
    var others := Others(players, p.slot);
    var sent := [ToRequester(p, WorldMessage(world))]
                + AnnounceOthers(p, others)
                + [ToRequester(p, State(p.slot)), ToRequester(p, AddPlayer(Info(p), true))];
    Step(p.(state := Spawning), sent)
  }

  /** BroadcastUpdate: the update re-tagged with the sender's slot, to everyone but the sender. */
  function BroadcastUpdate(p: Player, update: seq<byte>): (r: Outgoing)
    ensures r.to == AllExcept(p.connection)
    ensures r.delivery == UnreliableSequenced && r.channel == 0
    ensures r.body.ServerUpdate? && r.body.origin == p.slot && r.body.update == update
  {
    Outgoing(AllExcept(p.connection), UnreliableSequenced, 0, ServerUpdate(p.slot, update))
  }

  /**
   * HandleData: dispatch on the first byte. MsgState runs the handshake whatever the
   * current state; MsgPlayerClientUpdate broadcasts the rest of the message; any other
   * type changes nothing and sends nothing. Reading the type byte of an empty message fails.
   */
  function HandleData(p: Player, players: seq<PlayerInfo>, world: seq<byte>,
                      data: seq<byte>, codes: MessageCodes): (r: Result<Step, HandleError>)
    requires DistinctCodes(codes)
    ensures r.Failure? <==> data == []
    ensures r.Success? ==> SameIdentity(r.value.player, p)
    ensures r.Success? && data[0] == codes.state ==> r.value == SendState(p, players, world)
    ensures r.Success? && data[0] == codes.clientUpdate ==>
      r.value == Step(p, [BroadcastUpdate(p, data[1..])])
    ensures r.Success? && data[0] != codes.state && data[0] != codes.clientUpdate ==>
      r.value == Step(p, [])
  {
    if data == [] then Failure(ReadPastEnd)
    else if data[0] == codes.state then Success(SendState(p, players, world))
    else if data[0] == codes.clientUpdate then Success(Step(p, [BroadcastUpdate(p, data[1..])]))
    else Success(Step(p, []))
  }

  /** Whether a send addressed to `to` is delivered on connection `c`. */
  predicate Reaches(to: Recipient, c: Connection) {
    match to
    case Only(x) => c == x
    case AllExcept(x) => c != x
  }

  /** The delivery of a client update reaches exactly the connections other than the sender's. */
  lemma BroadcastSkipsOnlySender(p: Player, update: seq<byte>, c: Connection)
    ensures Reaches(BroadcastUpdate(p, update).to, c) <==> c != p.connection
  {
  }

  /**
   * A client update from session p reaches every other connection as one ServerUpdate
   * tagged with p's slot and carrying the update unchanged, and never reaches p itself.
   */
  lemma ClientUpdateFanOut(p: Player, players: seq<PlayerInfo>, world: seq<byte>,
                           data: seq<byte>, codes: MessageCodes, c: Connection)
    requires DistinctCodes(codes)
    requires data != [] && data[0] == codes.clientUpdate
    ensures var r := HandleData(p, players, world, data, codes);
      && r.Success? && r.value.player == p && |r.value.sent| == 1
      && r.value.sent[0].body == ServerUpdate(p.slot, data[1..])
      && (Reaches(r.value.sent[0].to, c) <==> c != p.connection)
  {
    BroadcastSkipsOnlySender(p, data[1..], c);
  }

  /** Every handshake message is delivered to the requester and to no other connection. */
  lemma HandshakeReachesOnlyRequester(p: Player, players: seq<PlayerInfo>, world: seq<byte>, c: Connection)
    ensures forall m :: m in SendState(p, players, world).sent ==> (Reaches(m.to, c) <==> c == p.connection)
  {
  }

  // ---------------------------------------------------------------------------
  // Counting the handshake's AddPlayer messages against the registry

  /** Number of registry entries whose slot differs from `slot`. */
  function CountOtherSlots(players: seq<PlayerInfo>, slot: byte): nat {
    if players == [] then 0
    else (if players[0].slot != slot then 1 else 0) + CountOtherSlots(players[1..], slot)
  }

  /** Number of AddPlayer messages with the given is-self flag. */
  function CountAddPlayer(sent: seq<Outgoing>, isSelf: bool): nat {
    if sent == [] then 0
    else (if sent[0].body.AddPlayer? && sent[0].body.isSelf == isSelf then 1 else 0)
         + CountAddPlayer(sent[1..], isSelf)
  }

  lemma {:induction false} CountAddPlayerAppend(a: seq<Outgoing>, b: seq<Outgoing>, isSelf: bool)
    ensures CountAddPlayer(a + b, isSelf) == CountAddPlayer(a, isSelf) + CountAddPlayer(b, isSelf)
  {
    if a == [] {
      assert a + b == b;
    } else {
      assert (a + b)[1..] == a[1..] + b;
      CountAddPlayerAppend(a[1..], b, isSelf);
    }
  }

  lemma {:induction false} OthersCount(players: seq<PlayerInfo>, slot: byte)
    ensures |Others(players, slot)| == CountOtherSlots(players, slot)
  {
    if players != [] {
      OthersCount(players[1..], slot);
    }
  }

  lemma {:induction false} AnnounceOthersCount(p: Player, others: seq<PlayerInfo>)
    ensures CountAddPlayer(AnnounceOthers(p, others), false) == |others|
    ensures CountAddPlayer(AnnounceOthers(p, others), true) == 0
  {
    if others != [] {
      var r := AnnounceOthers(p, others);
      assert r[1..] == AnnounceOthers(p, others[1..]);
      AnnounceOthersCount(p, others[1..]);
    }
  }

  /** The handshake is the world message, the announcements of the others, then State and self. */
  lemma HandshakeParts(p: Player, players: seq<PlayerInfo>, world: seq<byte>)
    ensures SendState(p, players, world).sent ==
      [ToRequester(p, WorldMessage(world))] + AnnounceOthers(p, Others(players, p.slot))
      + [ToRequester(p, State(p.slot)), ToRequester(p, AddPlayer(Info(p), true))]
  {
  }

  /** The handshake announces as many other players as the registry holds entries with another slot. */
  lemma HandshakeCountsOthers(p: Player, players: seq<PlayerInfo>, world: seq<byte>)
    ensures CountAddPlayer(SendState(p, players, world).sent, false) == CountOtherSlots(players, p.slot)
  {
    var head := [ToRequester(p, WorldMessage(world))];
    var mid := AnnounceOthers(p, Others(players, p.slot));
    var tail := [ToRequester(p, State(p.slot)), ToRequester(p, AddPlayer(Info(p), true))];
    HandshakeParts(p, players, world);
    CountAddPlayerAppend(head + mid, tail, false);
    CountAddPlayerAppend(head, mid, false);
    AnnounceOthersCount(p, Others(players, p.slot));
    OthersCount(players, p.slot);
    assert tail[1..][1..] == [];
    assert CountAddPlayer(tail, false) == 0;
  }

  /** The requester is announced to itself exactly once, and that announcement is the last message. */
  lemma HandshakeSelfOnceLast(p: Player, players: seq<PlayerInfo>, world: seq<byte>)
    ensures CountAddPlayer(SendState(p, players, world).sent, true) == 1
    ensures forall k :: 0 <= k < |SendState(p, players, world).sent| - 1 ==>
      !(SendState(p, players, world).sent[k].body.AddPlayer? && SendState(p, players, world).sent[k].body.isSelf)
  {
    var head := [ToRequester(p, WorldMessage(world))];
    var mid := AnnounceOthers(p, Others(players, p.slot));
    var tail := [ToRequester(p, State(p.slot)), ToRequester(p, AddPlayer(Info(p), true))];
    HandshakeParts(p, players, world);
    CountAddPlayerAppend(head + mid, tail, true);
    CountAddPlayerAppend(head, mid, true);
    AnnounceOthersCount(p, Others(players, p.slot));
    assert tail[1..][1..] == [];
    assert CountAddPlayer(tail, true) == 1;
  }

  /** No not-self announcement carries the requester's slot. */
  lemma HandshakeNeverDescribesRequester(p: Player, players: seq<PlayerInfo>, world: seq<byte>)
    ensures forall k :: 0 <= k < |SendState(p, players, world).sent| ==>
      var b := SendState(p, players, world).sent[k].body;
      b.AddPlayer? && !b.isSelf ==> b.info.slot != p.slot
  {
    var sent := SendState(p, players, world).sent;
    var others := Others(players, p.slot);
    forall k | 0 <= k < |sent| && sent[k].body.AddPlayer? && !sent[k].body.isSelf
      ensures sent[k].body.info.slot != p.slot
    {
      assert 1 <= k < |sent| - 2;
      assert others[k - 1] in others;
    }
  }

  // ---------------------------------------------------------------------------
  // Enumeration order

  /** The described players are the registry filtered in place: filtering distributes over concatenation. */
  lemma {:induction false} OthersKeepsOrder(a: seq<PlayerInfo>, b: seq<PlayerInfo>, slot: byte)
    ensures Others(a + b, slot) == Others(a, slot) + Others(b, slot)
  {
    if a == [] {
      assert a + b == b;
    } else {
      assert (a + b)[0] == a[0];
      assert (a + b)[1..] == a[1..] + b;
      OthersKeepsOrder(a[1..], b, slot);
    }
  }

  /** The three-player scenario: the third joiner sees the first two, then its State, then itself. */
  lemma ThirdJoinerHandshake(world: seq<byte>)
    ensures
      var a := PlayerInfo(0, "A", "", Team(0));
      var b := PlayerInfo(1, "B", "", Team(0));
      var c := NewPlayer(2, Connection(7), PlayerInfo(2, "C", "", Team(0)));
      SendState(c, [a, b, Info(c)], world).sent ==
        [ ToRequester(c, World(ToUInt16(|world|), world))
        , ToRequester(c, AddPlayer(a, false))
        , ToRequester(c, AddPlayer(b, false))
        , ToRequester(c, State(2))
        , ToRequester(c, AddPlayer(PlayerInfo(2, "C", "", Team(0)), true)) ]
  {
    var a := PlayerInfo(0, "A", "", Team(0));
    var b := PlayerInfo(1, "B", "", Team(0));
    var c := NewPlayer(2, Connection(7), PlayerInfo(2, "C", "", Team(0)));
    assert [a, b, Info(c)][1..] == [b, Info(c)];
    assert [b, Info(c)][1..] == [Info(c)];
    assert [Info(c)][1..] == [];
    assert Others([Info(c)], 2) == [];
    assert Others([b, Info(c)], 2) == [b];
    assert Others([a, b, Info(c)], 2) == [a, b];
  }

  // ---------------------------------------------------------------------------
  // The world message

  /** The length field equals the world length below 65536; above it wraps while every byte is still sent. */
  lemma WorldLengthField(world: seq<byte>)
    ensures WorldMessage(world).data == world
    ensures |world| < 0x1_0000 ==> WorldMessage(world).length as int == |world|
    ensures |world| >= 0x1_0000 ==> WorldMessage(world).length as int == |world| - 0x1_0000 * (|world| / 0x1_0000)
  {
  }

  /** A world of exactly 65536 bytes is announced with a length field of 0. */
  lemma OversizedWorldWraps(world: seq<byte>)
    requires |world| == 0x1_0000
    ensures WorldMessage(world).length == 0
    ensures |WorldMessage(world).data| == 0x1_0000
  {
  }

  // ---------------------------------------------------------------------------
  // Repeated requests and sequences of messages

  /** A second MsgState is not guarded: it re-sends the identical handshake and the state stays Spawning. */
  lemma RepeatedStateRequest(p: Player, players: seq<PlayerInfo>, world: seq<byte>,
                             data: seq<byte>, codes: MessageCodes)
    requires DistinctCodes(codes)
    requires data != [] && data[0] == codes.state
    ensures var first := HandleData(p, players, world, data, codes);
      first.Success? && first.value.player.state == Spawning &&
      var second := HandleData(first.value.player, players, world, data, codes);
      second.Success? && second.value.player == first.value.player && second.value.sent == first.value.sent
  {
  }

  /** One incoming message together with the registry's player list at the time it is handled. */
  datatype Inbound = Inbound(players: seq<PlayerInfo>, data: seq<byte>)

  /** Handles messages in order; a message whose type byte cannot be read leaves the session as it was. */
  function Run(p: Player, world: seq<byte>, inbound: seq<Inbound>, codes: MessageCodes): Step
    requires DistinctCodes(codes)
    decreases |inbound|
  {
    if inbound == [] then Step(p, [])
    else
      var r := HandleData(p, inbound[0].players, world, inbound[0].data, codes);
      var first := if r.Success? then r.value else Step(p, []);
      var rest := Run(first.player, world, inbound[1..], codes);
      Step(rest.player, first.sent + rest.sent)
  }

  /** Whether an inbound message carries the MsgState type byte. */
  predicate RequestsState(m: Inbound, codes: MessageCodes) {
    m.data != [] && m.data[0] == codes.state
  }

  /**
   * Over any sequence of messages the slot, connection, callsign, tag and team never
   * change, and the session ends in Spawning exactly when it started there or some
   * message was a MsgState.
   */
  lemma {:induction false} RunKeepsIdentity(p: Player, world: seq<byte>, inbound: seq<Inbound>, codes: MessageCodes)
    requires DistinctCodes(codes)
    ensures SameIdentity(Run(p, world, inbound, codes).player, p)
    ensures Info(Run(p, world, inbound, codes).player) == Info(p)
    ensures Run(p, world, inbound, codes).player.state == Spawning <==>
      p.state == Spawning || exists i :: 0 <= i < |inbound| && RequestsState(inbound[i], codes)
    decreases |inbound|
  {
    if inbound != [] {
      var r := HandleData(p, inbound[0].players, world, inbound[0].data, codes);
      var first := if r.Success? then r.value else Step(p, []);
      RunKeepsIdentity(first.player, world, inbound[1..], codes);
      assert first.player.state == Spawning <==> p.state == Spawning || RequestsState(inbound[0], codes);
      if exists i :: 0 <= i < |inbound| && RequestsState(inbound[i], codes) {
        var i :| 0 <= i < |inbound| && RequestsState(inbound[i], codes);
        if i > 0 {
          assert RequestsState(inbound[1..][i - 1], codes);
        }
      }
      if exists i :: 0 <= i < |inbound[1..]| && RequestsState(inbound[1..][i], codes) {
        var i :| 0 <= i < |inbound[1..]| && RequestsState(inbound[1..][i], codes);
        assert RequestsState(inbound[i + 1], codes);
      }
    }
  }

  // ---------------------------------------------------------------------------
  // The handshake as the source writes it: a loop over the registry

  /** SendState with the foreach over the registry written as a loop; it computes the handshake. */
  method SendStateLoop(p: Player, players: seq<PlayerInfo>, world: seq<byte>) returns (next: Player, sent: seq<Outgoing>)
    ensures Step(next, sent) == SendState(p, players, world)
  {
    var announced := [];
    var i := 0;
    while i < |players|
      invariant 0 <= i <= |players|
      invariant announced == AnnounceOthers(p, Others(players[..i], p.slot))
    {
      AnnouncePrefixStep(p, players, i);
      if players[i].slot != p.slot {
        announced := announced + [ToRequester(p, AddPlayer(players[i], false))];
      }
      i := i + 1;
    }
    assert players[..i] == players;
    sent := [ToRequester(p, WorldMessage(world))] + announced
            + [ToRequester(p, State(p.slot)), ToRequester(p, AddPlayer(Info(p), true))];
    next := p.(state := Spawning);
  }

  /** One iteration of the loop: the next registry entry is announced exactly when its slot differs. */
  lemma AnnouncePrefixStep(p: Player, players: seq<PlayerInfo>, i: nat)
    requires i < |players|
    ensures AnnounceOthers(p, Others(players[..i + 1], p.slot)) ==
      AnnounceOthers(p, Others(players[..i], p.slot))
      + (if players[i].slot != p.slot then [ToRequester(p, AddPlayer(players[i], false))] else [])
  {
    var other := players[i];
    assert players[..i + 1] == players[..i] + [other];
    OthersKeepsOrder(players[..i], [other], p.slot);
    AnnounceAppend(p, Others(players[..i], p.slot), Others([other], p.slot));
    if other.slot != p.slot {
      assert Others([other], p.slot) == [other];
    } else {
      assert Others([other], p.slot) == [];
    }
  }

  lemma AnnounceAppend(p: Player, a: seq<PlayerInfo>, b: seq<PlayerInfo>)
    ensures AnnounceOthers(p, a + b) == AnnounceOthers(p, a) + AnnounceOthers(p, b)
  {
    var l := AnnounceOthers(p, a + b);
    var r := AnnounceOthers(p, a) + AnnounceOthers(p, b);
    assert |l| == |r|;
    forall k | 0 <= k < |l| ensures l[k] == r[k] {
      if k < |a| {
        assert (a + b)[k] == a[k];
      } else {
        assert (a + b)[k] == b[k - |a|];
      }
    }
  }
}

=== FILE: text_box.dfy ===
/**
 * The text box of AngryTanks.Client/TextBox.cs: the console's line editor reduced to
 * Backspace and typed characters, with a prompt that is inactive until a caller sets
 * the PromptActive property.
 */
module TextBox {
  import opened LineEditor
  import opened ConsoleLines

  datatype TextBox = TextBox(isOpen: bool, editor: Editor, lines: seq<MessageLine>)

  /** The constructor: open, prompt inactive and empty, no history. */
  function NewTextBox(): (t: TextBox)
    ensures t.isOpen && !t.editor.active && !t.editor.justOpened
    ensures t.editor.prompt == Cleared && t.lines == []
  {
    TextBox(true, Editor(false, false, Cleared), [])
  }

  /** KeyPressed: Backspace is the only key handled; every other key leaves the box as it was. */
  function KeyPressed(t: TextBox, key: Key): (r: TextBox)
    ensures key != Back ==> r == t
    ensures key == Back ==>
      && r.editor.prompt == Backspace(t.editor.prompt)
      && r.isOpen == t.isOpen && r.lines == t.lines
      && r.editor.active == t.editor.active && r.editor.justOpened == t.editor.justOpened
  {
    match key
    case Back => t.(editor := t.editor.(prompt := Backspace(t.editor.prompt)))
    case _ => t
  }

  /** CharacterEntered: the same code as the console's. */
  function Typed(t: TextBox, ch: char): (r: TextBox)
    ensures r.isOpen == t.isOpen && r.lines == t.lines
    ensures r.editor == CharacterEntered(t.editor, ch)
  {
    t.(editor := CharacterEntered(t.editor, ch))
  }

  /** The public PromptActive setter. */
  function SetPromptActive(t: TextBox, active: bool): (r: TextBox)
    ensures r.editor.active == active && r.editor.prompt == t.editor.prompt
    ensures r.editor.justOpened == t.editor.justOpened
    ensures r.isOpen == t.isOpen && r.lines == t.lines
  {
    t.(editor := t.editor.(active := active))
  }

  /** The WriteLine overloads: the new line goes to the front of the history. */
  function Write(t: TextBox, line: MessageLine): (r: TextBox)
    ensures r.lines == WriteLine(t.lines, line) && r.editor == t.editor && r.isOpen == t.isOpen
  {
    t.(lines := WriteLine(t.lines, line))
  }

  /** Backspace keeps the cursor in range. */
  lemma KeyPressedKeepsValid(t: TextBox, key: Key)
    requires Valid(t.editor.prompt)
    ensures Valid(KeyPressed(t, key).editor.prompt)
  {
  }

  /** Typing keeps the cursor in range; unless a character is swallowed it even repairs an out-of-range cursor. */
  lemma TypedKeepsValid(t: TextBox, ch: char)
    requires Valid(t.editor.prompt) || !t.editor.justOpened
    ensures Valid(Typed(t, ch).editor.prompt)
  {
  }

  /** One call into the text box. */
  datatype Input = Press(key: Key) | Type(ch: char) | SetActive(active: bool) | WriteOut(line: MessageLine)

  function Step(t: TextBox, i: Input): TextBox {
    match i
    case Press(k) => KeyPressed(t, k)
    case Type(ch) => Typed(t, ch)
    case SetActive(b) => SetPromptActive(t, b)
    case WriteOut(line) => Write(t, line)
  }

  function Run(t: TextBox, inputs: seq<Input>): TextBox
    decreases |inputs|
  {
    if inputs == [] then t else Run(Step(t, inputs[0]), inputs[1..])
  }

  /** Nothing sets promptJustOpened, so from construction on the swallow branch of CharacterEntered never fires. */
  lemma {:induction false} NeverSwallows(t: TextBox, inputs: seq<Input>)
    requires !t.editor.justOpened
    ensures !Run(t, inputs).editor.justOpened
    decreases |inputs|
  {
    if inputs != [] {
      NeverSwallows(Step(t, inputs[0]), inputs[1..]);
    }
  }

  /** Whether some input turns the prompt on. */
  predicate Activates(inputs: seq<Input>) {
    exists i :: 0 <= i < |inputs| && inputs[i] == SetActive(true)
  }

  /** Without a call that sets PromptActive, the text stays empty whatever is typed or pressed. */
  lemma {:induction false} InactiveTextStaysEmpty(t: TextBox, inputs: seq<Input>)
    requires !t.editor.active && !t.editor.justOpened && t.editor.prompt == Cleared
    requires !Activates(inputs)
    ensures Run(t, inputs).editor.prompt == Cleared
    ensures !Run(t, inputs).editor.active
    decreases |inputs|
  {
    if inputs != [] {
      assert inputs[0] != SetActive(true);
      assert !Activates(inputs[1..]);
      InactiveTextStaysEmpty(Step(t, inputs[0]), inputs[1..]);
    }
  }

  /** In particular a freshly built text box ignores every typed character until activated. */
  lemma NewTextBoxIgnoresTyping(inputs: seq<Input>)
    requires !Activates(inputs)
    ensures Run(NewTextBox(), inputs).editor.prompt.input == ""
  {
    InactiveTextStaysEmpty(NewTextBox(), inputs);
  }
}

=== FILE: wrappers.dfy ===
/** Failure-carrying result type for operations the modelled code can fail. */
module Wrappers {

  datatype Result<+R, +E> = Success(value: R) | Failure(error: E)
}
